=== FILE: README.md ===
# ceph-csi (CSI v0): RBD controller and CephFS node state machines

This project models two request-driven state machines of a Container
Storage Interface (CSI v0) plugin for Ceph and proves properties of them in
Dafny.

- **RBD controller** (`RbdController`, properties in `RbdProperties`):
  `CreateVolume`, `DeleteVolume`, `ValidateVolumeCapabilities` and the
  no-op `ControllerPublishVolume`/`ControllerUnpublishVolume`. The state is
  the in-memory volume index `rbdVolumes` (volume id → record), the
  persisted per-volume records, and the backend images.
- **CephFS node** (`CephfsNode`, properties in `CephfsProperties`):
  `getOrCreateUser`, `NodeStageVolume`, `NodePublishVolume`,
  `NodeUnpublishVolume`, `NodeUnstageVolume` and `NodeGetCapabilities`.
  The state is the mount table, the directories the node has created, the
  node credential cache `nodeCache` (volume id → options and admin id), the
  volumes that own a dedicated Ceph user, and the stored credentials.

Each RPC is one atomic transition: a pure function from the state, the
request and an *environment* to a `Transition(next, reply)`. The
environment holds what every external collaborator reports during that
call. This covers backend commands, record persistence, option parsing,
request validation, credential look-up and storage, mount and unmount. So
every success or failure path of a collaborator is an input and is
covered by the proofs. Mount-point probes are not oracles: a path is a
mount point when it is in the mount table. Errors are the `ErrKind`
values `InvalidArgument`, `AlreadyExists` and `Internal`. There is also
`Panic`, which marks the one place where the Go code can panic: slicing
the prefix `"client."` off a created Ceph entity name that is too short.

Files: `csi.dfy` (shared `Option`, `Result`, `ErrKind`, `Transition`),
`rbd_controller.dfy`, `rbd_properties.dfy`, `cephfs_node.dfy`,
`cephfs_properties.dfy`.

Three behaviours of the code that a reader might not expect, all modelled
as written:

- `CreateVolume` rejects only a nil capability list
  (pkg/rbd/controllerserver.go:50), although its error message says the
  capabilities "cannot be empty" and the CSI v0 specification requires at
  least one capability. A present but empty list is accepted.
- `getOrCreateUser` inserts the node cache entry
  (pkg/cephfs/nodeserver.go:57) before `createCephUser` runs (line 61), and
  no later failure of the stage removes it. So a cached entry does not mean
  the volume is staged; `CephfsProperties.StageUserFailureKeepsEntry`
  exhibits such a state.
- More generally, the shared node cache is updated before the backend call
  that the entry describes has completed, and the model keeps that order.

## Model

| member | source | states |
|---|---|---|
| `RbdController.CreateVolume` | pkg/rbd/controllerserver.go:40-122 | Every error leaves index, store and images unchanged. InvalidArgument is returned exactly for a malformed request or, when no same-named volume exists, unparsable parameters. Internal is returned exactly when the probe finds no image and creation fails. A same-named volume means no state change at all. A successful reply's capacity is at least the required bytes and echoes the parameters. A new volume is indexed under its id with the reply's size, and stored only if persistence worked. Images are only added, and never when the probe finds one. |
| `RbdController.DeleteVolume` | pkg/rbd/controllerserver.go:124-151 | Errors are InvalidArgument (capability not advertised) or Internal. A record that does not load or an image that cannot be deleted gives Internal with nothing changed. A failed record deletion gives Internal with only the image removed. Succeeds iff the record loads and image and record deletion both work, and then removes the index entry, the record and the record's image. A record is never removed while its image remains. |
| `RbdController.ValidateVolumeCapabilities` | pkg/rbd/controllerserver.go:153-160 | Supported is true iff every capability's mode is SINGLE_NODE_WRITER, so an empty list is supported. The message is empty and there is no error outcome. |
| `RbdProperties.CreateRejectsMalformed` | pkg/rbd/controllerserver.go:41-52 | If the capability is not advertised, the name is empty or the capabilities are nil, the reply is InvalidArgument and the state is unchanged. |
| `RbdProperties.CreateReusesCompatible` | pkg/rbd/controllerserver.go:56-70 | A same-named volume at least as large as requested is returned (its id and size, with the request's parameters) with no state change. |
| `RbdProperties.CreateConflict` | pkg/rbd/controllerserver.go:56-72 | AlreadyExists is returned exactly when the request is well formed and a same-named volume is smaller than the required bytes. |
| `RbdProperties.CreateNewVolume` | pkg/rbd/controllerserver.go:82-96 | A newly created volume has id "csi-rbd-" + token and the request's name. It is indexed under that id. Its size is 1073741824 without a capacity range and the required bytes otherwise, and the reply reports that size. |
| `RbdProperties.CreateImageOnlyWhenAbsent` | pkg/rbd/controllerserver.go:97-109 | The image is created only when the probe reports it absent, with the size truncated to whole GiB. If creation fails the reply is Internal with nothing changed. |
| `RbdProperties.CreatePersistFailureIsWarning` | pkg/rbd/controllerserver.go:110-121 | If persisting the record fails, the call still succeeds and indexes the record, but the store is unchanged. |
| `RbdProperties.CreatePreservesInv` | pkg/rbd/controllerserver.go:54-121 | For any token, CreateVolume keeps every record filed under its own id and keeps indexed names unique. |
| `RbdProperties.DeletePreservesInv` | pkg/rbd/controllerserver.go:131-150 | DeleteVolume keeps the same invariant. |
| `RbdProperties.CreateIdempotent` | pkg/rbd/controllerserver.go:54-121 | Repeating a successful CreateVolume returns the identical reply and leaves the state exactly as the first call left it: no second image, record or index entry. |
| `RbdProperties.CreateCompatibleAfterCreateReuses` | pkg/rbd/controllerserver.go:56-70 | After a successful create, a request with the same name asking for no more than was provisioned returns the same id and capacity and leaves the state exactly as the first call left it. |
| `RbdProperties.CreateLargerAfterCreateConflicts` | pkg/rbd/controllerserver.go:56-71 | After a successful create, asking for the same name with more bytes than were provisioned is AlreadyExists with no state change. |
| `RbdProperties.CreateThenDelete` | pkg/rbd/controllerserver.go:83-150 | Deleting a freshly created and persisted volume restores the index and the store and leaves its image absent. |
| `RbdProperties.DeleteThenCreate` | pkg/rbd/controllerserver.go:131-150 | After a successful delete, the name look-up finds nothing. A create with that name returns the id from its own fresh token, which differs from the deleted id. |
| `RbdProperties.SizeInGiBTruncates` | pkg/rbd/controllerserver.go:97 | For a non-negative byte count, the GiB size handed to image creation is the whole number of GiB it contains: size·2^30 ≤ bytes < (size+1)·2^30. |
| `RbdProperties.SubGiBRemainderIsDropped` | pkg/rbd/controllerserver.go:92-102 | A 1.5 GiB request hands image creation 1 GiB, and a 0.5 GiB request hands it 0. |
| `RbdProperties.PartialGiBShrinksImage` | pkg/rbd/controllerserver.go:92-102 | For any positive byte count that is not a whole number of GiB, the size handed to image creation is strictly smaller than the capacity the reply reports. |
| `RbdProperties.PublishStubsAreNoOps` | pkg/rbd/controllerserver.go:162-168 | Controller publish and unpublish always succeed and change nothing. |
| `CephfsNode.GetOrCreateUser` | pkg/cephfs/nodeserver.go:35-86 | Succeeds exactly when every step works: for a dynamic volume, admin credentials present and stored, a user created with an entity name at least as long as "client.", and its credentials stored; for a pre-provisioned volume, user credentials present in the secrets and stored. A pre-provisioned volume then resolves to the secrets' user and the options as given. Never touches mounts or directories, and changes only this volume's cache entry, user and stored credentials. Errors are Internal, except Panic, which is returned exactly when a dynamic volume's admin credentials are stored and the created entity name is shorter than "client.". A pre-provisioned volume gets no user and an entry with admin id "". A dynamic volume is cached with its admin id before the user is created, and the entry stays if creation fails. On success the user id is the entity with the first len("client.") characters cut off, and the cached options carry the new root path. |
| `CephfsNode.NodeStageVolume` | pkg/cephfs/nodeserver.go:88-148 | InvalidArgument is returned exactly for an invalid request or unparsable options, with no change. A failure to create the directory, write the config or probe is Internal. Panic is returned exactly when the checks pass, the staging path is not mounted and getOrCreateUser panics on the entity slice; every other failure, including a failed user resolution or mount, is Internal. No error changes the mount table. Succeeds exactly when the checks pass and either the staging path is already a mount point or the user resolves and the mount works. An existing mount point short-circuits to success, touching only the directory set. A failed mount is an error. A new mount is a CephFS mount of the volume with the dedicated user and the derived root path for a dynamic volume, or with the secrets' user and the given root path otherwise; a dynamic volume then owns a user and the volume has a cache entry. Other volumes' entries and users are untouched. |
| `CephfsNode.NodePublishVolume` | pkg/cephfs/nodeserver.go:150-189 | InvalidArgument is returned exactly for an invalid request. Every other error (directory, probe, bind mount) is Internal, and an invalid request or failed directory creation changes nothing. Succeeds iff the checks pass and the target is already mounted or the bind mount works. A new mount is a bind of the staging path with the request's read-only flag. Cache, users and other mounts are untouched. |
| `CephfsNode.NodeUnpublishVolume` | pkg/cephfs/nodeserver.go:191-208 | The reply is InvalidArgument, Internal when unmount fails (state unchanged), or success. Success unmounts the target and removes its directory when removal works, and its reply does not depend on the removal. |
| `CephfsNode.NodeUnstageVolume` | pkg/cephfs/nodeserver.go:210-248 | A failed unmount is Internal with no change. A missing cache entry is Internal. Any error leaves the cache and users as before, including the reinsertion after a failed user deletion. Success pops the entry, unmounts, and deletes the user of a dynamic volume. |
| `CephfsProperties.StageIdempotent` | pkg/cephfs/nodeserver.go:115-127 | After a successful stage, staging again with passing checks succeeds and changes nothing: no second user, cache insert or mount. |
| `CephfsProperties.PublishIdempotent` | pkg/cephfs/nodeserver.go:165-177 | After a successful publish, publishing again succeeds and changes nothing. |
| `CephfsProperties.PublishThenUnpublish` | pkg/cephfs/nodeserver.go:150-207 | Publish to an unmounted target followed by a successful unpublish restores the mount table. The target directory is gone when removal works. |
| `CephfsProperties.UnpublishIgnoresRemoval` | pkg/cephfs/nodeserver.go:199-207 | The unpublish reply is the same whether or not the directory removal works. |
| `CephfsProperties.StagePreProvisioned` | pkg/cephfs/nodeserver.go:70-79 | Staging a pre-provisioned volume creates no backend user and caches the options with admin id "". |
| `CephfsProperties.StageMountFailureIsInternal` | pkg/cephfs/nodeserver.go:132-142 | Staging a pre-provisioned volume whose mount fails returns Internal, never Panic, and leaves the mount table unchanged. |
| `CephfsProperties.StageUserFailureKeepsEntry` | pkg/cephfs/nodeserver.go:43-62 | If creating the dedicated user fails, stage is Internal. The entry naming the admin stays cached, yet nothing is mounted and no user exists. |
| `CephfsProperties.UnstageRetryAfterFailedDeletion` | pkg/cephfs/nodeserver.go:225-242 | A failed user deletion leaves the cache and users exactly as before the call. A retry whose deletion works succeeds, and the entry and user are then gone. |
| `CephfsProperties.StageThenUnstage` | pkg/cephfs/nodeserver.go:88-248 | Staging an uncached, unmounted volume and then unstaging it restores the cache and mount table, leaves the other volumes' users as they were and, for a dynamically provisioned volume, leaves no dedicated user. |
| `CephfsProperties.NodeAdvertisesStageUnstage` | pkg/cephfs/nodeserver.go:250-262 | The node advertises exactly STAGE_UNSTAGE_VOLUME. |

## Left out

- External helpers are oracles, and their bodies are not part of this model. These are `rbdStatus`, `createRBDImage`, `deleteRBDImage`, `persistVolInfo`, `loadVolInfo`, `deleteVolInfo`, `getRBDVolumeOptions`, `createCephUser`, `deleteCephUser`, `getAdminCredentials`, `getUserCredentials`, `storeCephCredentials`, `createMountPoint`, `bindMount`, `unmountVolume`, `newVolumeOptions`, `getVolumeRootPath_ceph` and the `validateNode*Request` functions. Only their success, failure and returned values are modelled.
- `getRBDVolumeByName`: its body is not part of this model. The `NameLookup` predicate constrains its oracle result to an indexed record with that name, or to nothing when no indexed record has it.
- The code discards the error `rbdStatus` returns. The model keeps only the found flag the probe reports.
- Writing the Ceph config file is an effect that may fail, with no state. `os.Remove` is an effect whose failure is ignored, and it only removes a directory from the directory set.
- UUID generation: the unique token is an input. Lemmas that need it unique require `Fresh`, meaning its id is in neither the index nor the store.
- gRPC status construction, messages and glog logging are left out. Errors are `ErrKind` values.
- Secrets, volume attributes and create parameters only feed the oracles, so requests carry just the fields the handlers read themselves.
- Concurrency: `rbdVolumes` and `nodeCache` are unsynchronised maps shared by concurrent handlers. Each RPC is modelled as one atomic step.
- The branch that builds a volume name when the name is empty (pkg/rbd/controllerserver.go:85-87) is left out. Line 47 already rejects empty names, so it is unreachable.
- Integer widths: sizes are Go int64 and are unbounded here. The only arithmetic, the GiB division, is modelled with Go's truncation toward zero.
- GetOrCreateUser: the model slices the entity name by characters, while Go's `len` and slice count bytes. The two agree whenever the first seven bytes are ASCII, as in every name starting with `"client."`. A name with multi-byte characters can differ: "éééé" is 4 characters but 8 bytes, so Go does not panic where the model returns `Panic`.
- A Go panic (`Panic`) keeps the state reached at that point. What the process does next (gRPC does not recover it) is not modelled.
- A node-process restart, which empties `nodeCache`, is not modelled.
- `unmountVolume` is an oracle. So `CephfsProperties.UnstageRetryAfterFailedDeletion` assumes the retry's unmount succeeds, although the path was already unmounted by the first attempt.
- `ValidateVolumeCapabilities` ignores the volume id and never checks that the volume exists. The model does the same.

=== FILE: cephfs_node.dfy ===
/** The CephFS node service: getOrCreateUser, NodeStageVolume,
    NodePublishVolume, NodeUnpublishVolume, NodeUnstageVolume and
    NodeGetCapabilities, over an abstract node: its mount table, the
    directories it has created, the node credential cache (`nodeCache`),
    the backend users dedicated to volumes, and the stored credentials.

    Mount-point probes read the mount table; every other collaborator
    (request validation, option parsing, directory creation, the config
    file, credential look-up and storage, user creation and deletion,
    mount and unmount) is an oracle whose outcome is a field of the
    request's environment. */
module CephfsNode {
  import opened Csi

  /** The prefix every Ceph client entity name carries. */
  const ClientPrefix: string := "client."

  /** Volume options parsed from the volume attributes. */
  datatype VolumeOptions = VolumeOptions(
    monitors: string,
    pool: string,
    rootPath: string,
    provisionVolume: bool,
    mounter: string)

  /** A node cache entry: the options used at stage time and, for a
      dynamically provisioned volume, the id of the admin user that created
      the dedicated user. Pre-provisioned entries carry Go's zero value "". */
  datatype CacheEntry = CacheEntry(volOptions: VolumeOptions, cephAdminId: string)

  datatype Credentials = Credentials(id: string, key: string)

  /** What user creation reports: the full entity name and its key. */
  datatype CephEntity = CephEntity(entity: string, key: string)

  /** A credential stored on the node for a volume. */
  datatype StoredCredentials = StoredCredentials(volId: string, creds: Credentials)

  /** A mount: a CephFS mount of a volume as a user, or a bind mount. */
  datatype Mount =
    | CephMount(volId: string, userId: string, rootPath: string)
    | BindMount(source: string, readOnly: bool)

  /** Node state. `users` holds the volume ids that own a dedicated backend
      user. */
  datatype NodeState = NodeState(
    mounts: map<string, Mount>,
    dirs: set<string>,
    cache: map<string, CacheEntry>,
    users: set<string>,
    stored: set<StoredCredentials>)

  datatype NodeCapability = StageUnstageVolume

  /** The credentials getOrCreateUser resolved, and the options as they stand
      afterwards (the root path is set for a dynamic volume). */
  datatype ResolvedUser = ResolvedUser(creds: Credentials, volOptions: VolumeOptions)

  /** What the credential collaborators report during getOrCreateUser:
      the admin credentials in the stage secrets, whether storing them works,
      the created entity, the root path derived from the volume id, the user
      credentials in the stage secrets, and whether storing them works. */
  datatype UserEnv = UserEnv(
    adminCreds: Option<Credentials>,
    storeAdminOk: bool,
    createdUser: Option<CephEntity>,
    volumeRootPath: string,
    userCreds: Option<Credentials>,
    storeUserOk: bool)

  datatype StageRequest = StageRequest(volumeId: string, stagingPath: string)

  /** Collaborator outcomes for NodeStageVolume: request validation, option
      parsing, staging directory creation, config file write, the mount-point
      probe's error, the user resolution and the mount. */
  datatype StageEnv = StageEnv(
    requestValid: bool,
    volOptions: Option<VolumeOptions>,
    mkdirOk: bool,
    configOk: bool,
    probeOk: bool,
    user: UserEnv,
    mountOk: bool)

  datatype PublishRequest = PublishRequest(volumeId: string, stagingPath: string, targetPath: string, readOnly: bool)

  datatype PublishEnv = PublishEnv(requestValid: bool, mkdirOk: bool, probeOk: bool, bindOk: bool)

  datatype UnpublishRequest = UnpublishRequest(volumeId: string, targetPath: string)

  /** `removeOk` is whether removing the directory works; its failure is ignored. */
  datatype UnpublishEnv = UnpublishEnv(requestValid: bool, unmountOk: bool, removeOk: bool)

  datatype UnstageRequest = UnstageRequest(volumeId: string, stagingPath: string)

  datatype UnstageEnv = UnstageEnv(requestValid: bool, unmountOk: bool, removeOk: bool, deleteUserOk: bool)

  /** Whether the staging checks that precede the mount-point probe pass. */
  predicate StagePrechecksPass(env: StageEnv) {
    env.requestValid && env.volOptions.Some? && env.mkdirOk && env.configOk && env.probeOk
  }

  /** Whether the publish checks that precede the mount-point probe pass. */
  predicate PublishPrechecksPass(env: PublishEnv) {
    env.requestValid && env.mkdirOk && env.probeOk
  }

  /** Whether every step of getOrCreateUser works: for a dynamic volume the
      admin credentials are present and stored, the user is created with an
      entity name long enough to slice, and its credentials are stored; for a
      pre-provisioned volume the user credentials are present and stored. */
  predicate UserResolves(opts: VolumeOptions, env: UserEnv) {
    if opts.provisionVolume then
      && env.adminCreds.Some? && env.storeAdminOk
      && env.createdUser.Some? && |env.createdUser.value.entity| >= |ClientPrefix|
      && env.storeUserOk
    else
      env.userCreds.Some? && env.storeUserOk
  }

  /** The user id of an entity: its name with the client prefix cut off
      (Go slices off `len(prefix)` bytes, modelled here as characters,
      without looking at them). */
  function UserIdOf(entity: string): string
    requires |entity| >= |ClientPrefix|
  {
    entity[|ClientPrefix|..]
  }

  /** Records the resolved user's credentials, the last step of getOrCreateUser. */
  function StoreUser(s: NodeState, volId: string, user: Credentials, opts: VolumeOptions, storeOk: bool)
    : Transition<NodeState, ResolvedUser>
  {
    if !storeOk then Transition(s, Err(Internal))
    else Transition(s.(stored := s.stored + {StoredCredentials(volId, user)}), Ok(ResolvedUser(user, opts)))
  }

  /** getOrCreateUser. For a dynamically provisioned volume: store the admin
      credentials, cache an entry naming the admin, create the dedicated
      user, take its id from the entity name and set the volume root path.
      For a pre-provisioned volume: take the user credentials from the
      secrets and cache an entry without an admin. Then store the user's
      credentials. Any failure is returned as it stands; nothing done before
      it is undone. */
  function GetOrCreateUser(s: NodeState, opts: VolumeOptions, volId: string, env: UserEnv)
    : (t: Transition<NodeState, ResolvedUser>)
    ensures t.reply.Ok? <==> UserResolves(opts, env)
    ensures t.reply.Err? ==> t.reply.kind in {Internal, Panic}
    // The one panic is slicing the prefix off a created entity name that is too short.
    ensures t.reply == Err(Panic) <==>
              && opts.provisionVolume && env.adminCreds.Some? && env.storeAdminOk
              && env.createdUser.Some? && |env.createdUser.value.entity| < |ClientPrefix|
    // Mount table and directories are never touched.
    ensures t.next.mounts == s.mounts && t.next.dirs == s.dirs
    // Only this volume's cache entry and user can change.
    ensures forall v :: v != volId ==> (v in t.next.cache <==> v in s.cache)
    ensures forall v :: v != volId && v in s.cache ==> t.next.cache[v] == s.cache[v]
    ensures t.next.users - {volId} == s.users - {volId}
    ensures s.stored <= t.next.stored
    // A pre-provisioned volume never gets a backend user; its entry names no admin.
    ensures !opts.provisionVolume ==> t.next.users == s.users
    ensures !opts.provisionVolume && env.userCreds.Some? ==>
              t.next.cache == s.cache[volId := CacheEntry(opts, "")]
    ensures !opts.provisionVolume && env.userCreds.None? ==> t == Transition(s, Err(Internal))
    // A dynamic volume is cached with its admin before the user is created,
    // and the entry stays when creation fails.
    ensures opts.provisionVolume && env.adminCreds.Some? && env.storeAdminOk ==>
              && volId in t.next.cache
              && t.next.cache[volId].cephAdminId == env.adminCreds.value.id
              && t.next.cache[volId].volOptions.provisionVolume
    ensures opts.provisionVolume && env.adminCreds.Some? && env.storeAdminOk && env.createdUser.None? ==>
              t.reply == Err(Internal) && t.next.users == s.users
    ensures opts.provisionVolume && (env.adminCreds.None? || !env.storeAdminOk) ==>
              t == Transition(s, Err(Internal))
    // The dedicated user's id is the entity name without the client prefix.
    ensures opts.provisionVolume && t.reply.Ok? ==>
              && env.createdUser.Some?
              && |env.createdUser.value.entity| >= |ClientPrefix|
              && t.reply.value.creds.id == env.createdUser.value.entity[|ClientPrefix|..]
              && (ClientPrefix <= env.createdUser.value.entity ==>
                    ClientPrefix + t.reply.value.creds.id == env.createdUser.value.entity)
              && volId in t.next.users
              && t.reply.value.volOptions.rootPath == env.volumeRootPath
              && t.next.cache[volId].volOptions == t.reply.value.volOptions
    // A pre-provisioned volume uses the secrets' user and the options as parsed.
    ensures !opts.provisionVolume && t.reply.Ok? ==>
              t.reply.value == ResolvedUser(env.userCreds.value, opts)
    ensures t.reply.Ok? ==> StoredCredentials(volId, t.reply.value.creds) in t.next.stored
  {
    if opts.provisionVolume then
      match env.adminCreds
      case None => Transition(s, Err(Internal))
      case Some(admin) =>
        if !env.storeAdminOk then Transition(s, Err(Internal))
        else
          var s1 := s.(stored := s.stored + {StoredCredentials(volId, admin)},
                       cache := s.cache[volId := CacheEntry(opts, admin.id)]);
          match env.createdUser
          case None => Transition(s1, Err(Internal))
          case Some(ent) =>
            var s2 := s1.(users := s1.users + {volId});
            if |ent.entity| < |ClientPrefix| then Transition(s2, Err(Panic))
            else
              var user := Credentials(UserIdOf(ent.entity), ent.key);
              // The cache entry holds a pointer to the same options, so it
              // sees the root path assigned here.
              var opts' := opts.(rootPath := env.volumeRootPath);
              var s3 := s2.(cache := s2.cache[volId := CacheEntry(opts', admin.id)]);
              StoreUser(s3, volId, user, opts', env.storeUserOk)
    else
      match env.userCreds
      case None => Transition(s, Err(Internal))
      case Some(user) =>
        StoreUser(s.(cache := s.cache[volId := CacheEntry(opts, "")]), volId, user, opts, env.storeUserOk)
  }

  /** NodeStageVolume: validate, parse the options, create the staging
      directory, write the config file, and succeed at once if the staging
      path is already a mount point; otherwise resolve the user and mount. */
  function NodeStageVolume(s: NodeState, req: StageRequest, env: StageEnv): (t: Transition<NodeState, ()>)
    ensures !env.requestValid || env.volOptions.None? ==> t == Transition(s, Err(InvalidArgument))
    // Every other failure (directory, config file, probe, user, mount) is internal.
    ensures t.reply == Err(InvalidArgument) <==> !env.requestValid || env.volOptions.None?
    ensures env.requestValid && env.volOptions.Some? && (!env.mkdirOk || !env.configOk || !env.probeOk) ==>
              t.reply == Err(Internal)
    ensures StagePrechecksPass(env) && req.stagingPath !in s.mounts && !env.mountOk ==> t.reply.Err?
    // The stage succeeds exactly when the path is already mounted or the user
    // resolves and the mount works.
    ensures t.reply.Ok? <==>
              StagePrechecksPass(env)
              && (req.stagingPath in s.mounts || (UserResolves(env.volOptions.value, env.user) && env.mountOk))
    ensures t.reply.Err? ==> t.reply.kind in {InvalidArgument, Internal, Panic}
    // Only the entity-name slice in getOrCreateUser panics; every other
    // failure of user resolution or mounting is internal.
    ensures t.reply == Err(Panic) <==>
              && StagePrechecksPass(env) && req.stagingPath !in s.mounts
              && GetOrCreateUser(s.(dirs := s.dirs + {req.stagingPath}), env.volOptions.value,
                                 req.volumeId, env.user).reply == Err(Panic)
    ensures t.reply.Err? ==> t.next.mounts == s.mounts
    // Already staged: nothing but the (existing) directory is touched.
    ensures StagePrechecksPass(env) && req.stagingPath in s.mounts ==>
              t == Transition(s.(dirs := s.dirs + {req.stagingPath}), Ok(()))
    // A successful stage leaves the staging path mounted.
    ensures t.reply.Ok? ==> req.stagingPath in t.next.mounts
    ensures t.reply.Ok? && req.stagingPath !in s.mounts ==>
              && t.next.mounts == s.mounts[req.stagingPath := t.next.mounts[req.stagingPath]]
              && t.next.mounts[req.stagingPath].CephMount?
              && t.next.mounts[req.stagingPath].volId == req.volumeId
              && req.volumeId in t.next.cache
    // The mount uses the dedicated user and the derived root path of a dynamic
    // volume, or the secrets' user and the given root path otherwise.
    ensures t.reply.Ok? && req.stagingPath !in s.mounts ==>
              t.next.mounts[req.stagingPath] ==
                (if env.volOptions.value.provisionVolume
                 then CephMount(req.volumeId, env.user.createdUser.value.entity[|ClientPrefix|..],
                                env.user.volumeRootPath)
                 else CephMount(req.volumeId, env.user.userCreds.value.id, env.volOptions.value.rootPath))
    ensures t.reply.Ok? && req.stagingPath !in s.mounts && env.volOptions.value.provisionVolume ==>
              req.volumeId in t.next.users
    // Only this volume's cache entry and user can change.
    ensures forall v :: v != req.volumeId ==> (v in t.next.cache <==> v in s.cache)
    ensures forall v :: v != req.volumeId && v in s.cache ==> t.next.cache[v] == s.cache[v]
    ensures t.next.users - {req.volumeId} == s.users - {req.volumeId}
  {
    if !env.requestValid then Transition(s, Err(InvalidArgument))
    else if env.volOptions.None? then Transition(s, Err(InvalidArgument))
    else if !env.mkdirOk then Transition(s, Err(Internal))
    else
      var s1 := s.(dirs := s.dirs + {req.stagingPath});
      if !env.configOk || !env.probeOk then Transition(s1, Err(Internal))
      else if req.stagingPath in s1.mounts then Transition(s1, Ok(()))
      else
        var u := GetOrCreateUser(s1, env.volOptions.value, req.volumeId, env.user);
        match u.reply
        case Err(k) => Transition(u.next, Err(if k == Panic then Panic else Internal))
        case Ok(resolved) =>
          if !env.mountOk then Transition(u.next, Err(Internal))
          else
            var m := CephMount(req.volumeId, resolved.creds.id, resolved.volOptions.rootPath);
            Transition(u.next.(mounts := u.next.mounts[req.stagingPath := m]), Ok(()))
  }

  /** NodePublishVolume: validate, create the target directory, succeed at
      once if the target is already a mount point, otherwise bind-mount the
      staging path onto it with the request's read-only flag. */
  function NodePublishVolume(s: NodeState, req: PublishRequest, env: PublishEnv): (t: Transition<NodeState, ()>)
    ensures !env.requestValid ==> t == Transition(s, Err(InvalidArgument))
    ensures t.reply.Err? ==> t.reply.kind in {InvalidArgument, Internal}
    // Directory, probe and bind-mount failures are internal.
    ensures t.reply == Err(InvalidArgument) <==> !env.requestValid
    ensures !env.requestValid || !env.mkdirOk ==> t.next == s
    // Publishing touches only the target's mount and directory.
    ensures t.next.cache == s.cache && t.next.users == s.users && t.next.stored == s.stored
    ensures t.next.mounts - {req.targetPath} == s.mounts - {req.targetPath}
    ensures PublishPrechecksPass(env) && req.targetPath in s.mounts ==>
              t == Transition(s.(dirs := s.dirs + {req.targetPath}), Ok(()))
    ensures t.reply.Ok? ==> req.targetPath in t.next.mounts && req.targetPath in t.next.dirs
    ensures t.reply.Ok? && req.targetPath !in s.mounts ==>
              t.next.mounts[req.targetPath] == BindMount(req.stagingPath, req.readOnly)
    ensures t.reply.Ok? <==> PublishPrechecksPass(env) && (req.targetPath in s.mounts || env.bindOk)
  {
    if !env.requestValid then Transition(s, Err(InvalidArgument))
    else if !env.mkdirOk then Transition(s, Err(Internal))
    else
      var s1 := s.(dirs := s.dirs + {req.targetPath});
      if !env.probeOk then Transition(s1, Err(Internal))
      else if req.targetPath in s1.mounts then Transition(s1, Ok(()))
      else if !env.bindOk then Transition(s1, Err(Internal))
      else Transition(s1.(mounts := s1.mounts[req.targetPath := BindMount(req.stagingPath, req.readOnly)]), Ok(()))
  }

  /** NodeUnpublishVolume: validate, unmount the target, then try to remove
      its directory, ignoring a failure to do so. */
  function NodeUnpublishVolume(s: NodeState, req: UnpublishRequest, env: UnpublishEnv)
    : (t: Transition<NodeState, ()>)
    ensures !env.requestValid ==> t == Transition(s, Err(InvalidArgument))
    ensures t.reply.Err? ==> t.next == s
    // The reply does not depend on whether the directory could be removed.
    ensures t.reply == (if !env.requestValid then Err(InvalidArgument)
                        else if !env.unmountOk then Err(Internal) else Ok(()))
    ensures t.reply.Ok? ==>
              && t.next.mounts == s.mounts - {req.targetPath}
              && t.next.dirs == (if env.removeOk then s.dirs - {req.targetPath} else s.dirs)
    ensures t.next.cache == s.cache && t.next.users == s.users && t.next.stored == s.stored
  {
    if !env.requestValid then Transition(s, Err(InvalidArgument))
    else if !env.unmountOk then Transition(s, Err(Internal))
    else
      var dirs := if env.removeOk then s.dirs - {req.targetPath} else s.dirs;
      Transition(s.(mounts := s.mounts - {req.targetPath}, dirs := dirs), Ok(()))
  }

  /** NodeUnstageVolume: validate, unmount the staging path, try to remove
      its directory, then pop the cache entry. For a dynamically provisioned
      volume delete the dedicated user with the cached admin id; if that
      fails, put the popped entry back and fail. */
  function NodeUnstageVolume(s: NodeState, req: UnstageRequest, env: UnstageEnv)
    : (t: Transition<NodeState, ()>)
    ensures !env.requestValid ==> t == Transition(s, Err(InvalidArgument))
    ensures env.requestValid && !env.unmountOk ==> t == Transition(s, Err(Internal))
    // A missing cache entry is an internal error and the cache is unchanged.
    ensures env.requestValid && env.unmountOk && req.volumeId !in s.cache ==>
              t.reply == Err(Internal) && t.next.cache == s.cache
    // Whatever fails, the cache ends as it began.
    ensures t.reply.Err? ==> t.next.cache == s.cache && t.next.users == s.users
    ensures t.reply.Ok? ==>
              && req.volumeId in s.cache
              && t.next.cache == s.cache - {req.volumeId}
              && t.next.mounts == s.mounts - {req.stagingPath}
              && (s.cache[req.volumeId].volOptions.provisionVolume ==> t.next.users == s.users - {req.volumeId})
              && (!s.cache[req.volumeId].volOptions.provisionVolume ==> t.next.users == s.users)
    ensures t.reply.Ok? <==>
              && env.requestValid && env.unmountOk && req.volumeId in s.cache
              && (s.cache[req.volumeId].volOptions.provisionVolume ==> env.deleteUserOk)
    ensures t.next.stored == s.stored
  {
    if !env.requestValid then Transition(s, Err(InvalidArgument))
    else if !env.unmountOk then Transition(s, Err(Internal))
    else
      var dirs := if env.removeOk then s.dirs - {req.stagingPath} else s.dirs;
      var s1 := s.(mounts := s.mounts - {req.stagingPath}, dirs := dirs);
      if req.volumeId !in s1.cache then Transition(s1, Err(Internal))
      else
        var ent := s1.cache[req.volumeId];
        var s2 := s1.(cache := s1.cache - {req.volumeId});
        if !ent.volOptions.provisionVolume then Transition(s2, Ok(()))
        else if !env.deleteUserOk then
          // Reinsert the entry so that a retry finds it again.
          Transition(s2.(cache := s2.cache[req.volumeId := ent]), Err(Internal))
        else Transition(s2.(users := s2.users - {req.volumeId}), Ok(()))
  }

  /** NodeGetCapabilities: the node advertises stage/unstage support only. */
  function NodeGetCapabilities(): seq<NodeCapability> {
    [StageUnstageVolume]
  }
}

=== FILE: cephfs_properties.dfy ===
/** Properties of the CephFS node service across calls: staging and
    publishing are idempotent, unpublish undoes publish, unstage undoes
    stage, and a failed user deletion during unstage keeps the cache entry
    for a retry. */
module CephfsProperties {
  import opened Csi
  import opened CephfsNode

  /** Staging a second time, once the first stage succeeded, finds the mount
      point and succeeds without creating a user, caching or mounting. */
  lemma StageIdempotent(s: NodeState, req: StageRequest, env1: StageEnv, env2: StageEnv)
    requires NodeStageVolume(s, req, env1).reply.Ok?
    requires StagePrechecksPass(env2)
    ensures var t1 := NodeStageVolume(s, req, env1);
            NodeStageVolume(t1.next, req, env2) == Transition(t1.next, Ok(()))
  {
  }

  /** Publishing a second time finds the bind mount and changes nothing. */
  lemma PublishIdempotent(s: NodeState, req: PublishRequest, env1: PublishEnv, env2: PublishEnv)
    requires NodePublishVolume(s, req, env1).reply.Ok?
    requires PublishPrechecksPass(env2)
    ensures var t1 := NodePublishVolume(s, req, env1);
            NodePublishVolume(t1.next, req, env2) == Transition(t1.next, Ok(()))
  {
  }

  /** Unpublishing what was just published restores the mount table and,
      when removal works, removes the target directory. */
  lemma PublishThenUnpublish(s: NodeState, req: PublishRequest, env: PublishEnv, uenv: UnpublishEnv)
    requires req.targetPath !in s.mounts
    requires NodePublishVolume(s, req, env).reply.Ok?
    requires uenv.requestValid && uenv.unmountOk
    ensures var t1 := NodePublishVolume(s, req, env);
            var t2 := NodeUnpublishVolume(t1.next, UnpublishRequest(req.volumeId, req.targetPath), uenv);
            && t2.reply.Ok?
            && t2.next.mounts == s.mounts
            && (uenv.removeOk ==> req.targetPath !in t2.next.dirs)
            && t2.next.cache == s.cache
  {
  }

  /** Whether the directory can be removed never changes the reply of
      NodeUnpublishVolume, so a repeated unpublish does not fail on it. */
  lemma UnpublishIgnoresRemoval(s: NodeState, req: UnpublishRequest, env: UnpublishEnv)
    ensures NodeUnpublishVolume(s, req, env.(removeOk := true)).reply
         == NodeUnpublishVolume(s, req, env.(removeOk := false)).reply
  {
  }

  /** A pre-provisioned volume is cached without an admin id and gets no
      backend user. */
  lemma StagePreProvisioned(s: NodeState, req: StageRequest, env: StageEnv)
    requires StagePrechecksPass(env) && !env.volOptions.value.provisionVolume
    requires req.stagingPath !in s.mounts && env.user.userCreds.Some?
    ensures var t := NodeStageVolume(s, req, env);
            && t.next.users == s.users
            && t.next.cache == s.cache[req.volumeId := CacheEntry(env.volOptions.value, "")]
  {
  }

  /** A pre-provisioned volume never reaches the entity slice, so a failed
      mount after its user resolves is a retryable internal error that leaves
      the mount table as it was. */
  lemma StageMountFailureIsInternal(s: NodeState, req: StageRequest, env: StageEnv)
    requires StagePrechecksPass(env) && !env.volOptions.value.provisionVolume
    requires req.stagingPath !in s.mounts && !env.mountOk
    ensures var t := NodeStageVolume(s, req, env);
            && t.reply == Err(Internal)
            && t.next.mounts == s.mounts
  {
  }

  /** When creating the dedicated user fails, the stage fails but the entry
      naming the admin stays cached while nothing is mounted: a cache entry
      does not imply a staged volume. */
  lemma StageUserFailureKeepsEntry(s: NodeState, req: StageRequest, env: StageEnv)
    requires StagePrechecksPass(env) && env.volOptions.value.provisionVolume
    requires req.stagingPath !in s.mounts
    requires env.user.adminCreds.Some? && env.user.storeAdminOk && env.user.createdUser.None?
    ensures var t := NodeStageVolume(s, req, env);
            && t.reply == Err(Internal)
            && req.volumeId in t.next.cache
            && t.next.cache[req.volumeId] == CacheEntry(env.volOptions.value, env.user.adminCreds.value.id)
            && req.stagingPath !in t.next.mounts
            && t.next.users == s.users
  {
  }

  /** If deleting the dedicated user fails, the cache is exactly as before
      the call; a retry whose user deletion works then completes the cleanup. */
  lemma UnstageRetryAfterFailedDeletion(s: NodeState, req: UnstageRequest, env1: UnstageEnv, env2: UnstageEnv)
    requires env1.requestValid && env1.unmountOk && !env1.deleteUserOk
    requires req.volumeId in s.cache && s.cache[req.volumeId].volOptions.provisionVolume
    requires env2.requestValid && env2.unmountOk && env2.deleteUserOk
    ensures var t1 := NodeUnstageVolume(s, req, env1);
            var t2 := NodeUnstageVolume(t1.next, req, env2);
            && t1.reply == Err(Internal)
            && t1.next.cache == s.cache
            && t1.next.users == s.users
            && t2.reply.Ok?
            && req.volumeId !in t2.next.cache
            && req.volumeId !in t2.next.users
  {
  }

  /** Staging a volume that was neither cached nor mounted and then
      unstaging it leaves the cache and mount table as they were, the other
      volumes' users untouched, and no dedicated user behind. */
  lemma StageThenUnstage(s: NodeState, req: StageRequest, env: StageEnv, uenv: UnstageEnv)
    requires req.volumeId !in s.cache && req.stagingPath !in s.mounts
    requires NodeStageVolume(s, req, env).reply.Ok?
    requires uenv.requestValid && uenv.unmountOk && uenv.deleteUserOk
    ensures var t1 := NodeStageVolume(s, req, env);
            var t2 := NodeUnstageVolume(t1.next, UnstageRequest(req.volumeId, req.stagingPath), uenv);
            && t2.reply.Ok?
            && t2.next.cache == s.cache
            && t2.next.mounts == s.mounts
            && t2.next.users - {req.volumeId} == s.users - {req.volumeId}
            && (env.volOptions.value.provisionVolume ==> req.volumeId !in t2.next.users)
  {
  }

  /** The node advertises STAGE_UNSTAGE_VOLUME and nothing else. */
  lemma NodeAdvertisesStageUnstage()
    ensures NodeGetCapabilities() == [StageUnstageVolume]
  {
  }
}

=== FILE: csi.dfy ===
/** Vocabulary shared by the controller and node services: optional values,
    the error kinds a handler replies with, and the effect of one request on
    a service's state. */
module Csi {

  /** An optional value; `None` stands for a Go nil pointer or an absent field. */
  datatype Option<+T> = None | Some(value: T) {

    /** The carried value, or `default` when there is none (Go's zero-value getters). */
    function GetOr(default: T): T {
      match this
      case Some(v) => v
      case None => default
    }
  }

  /** The gRPC status codes the handlers return. `Panic` is not a status code:
      it marks a Go runtime panic (an out-of-range slice) inside a handler. */
  datatype ErrKind = InvalidArgument | AlreadyExists | Internal | Panic

  /** A handler's reply: a response message or an error. */
  datatype Result<+T> = Ok(value: T) | Err(kind: ErrKind)

  /** One request handled as an atomic step: the state the service is left in
      and the reply it sends. */
  datatype Transition<+S, +T> = Transition(next: S, reply: Result<T>)
}

=== FILE: rbd_controller.dfy ===
/** The RBD controller service: CreateVolume, DeleteVolume,
    ValidateVolumeCapabilities and the no-op publish/unpublish handlers,
    over three pieces of state: the in-memory volume index (`rbdVolumes`),
    the persisted per-volume records, and the backend images.

    Every call into the backend, the record store or the name look-up is an
    oracle: what it reports is a field of the request's environment. */
module RbdController {
  import opened Csi

  /** Default size of a volume created without a capacity range: 1 GiB. */
  const OneGiB: int := 1073741824

  /** Namespace prefix of every generated volume id. */
  const VolumeIdPrefix: string := "csi-rbd-"

  /** CSI v0 access modes; `Unknown` is also what a missing mode reads as. */
  datatype AccessMode =
    | Unknown
    | SingleNodeWriter
    | SingleNodeReaderOnly
    | MultiNodeReaderOnly
    | MultiNodeSingleWriter
    | MultiNodeMultiWriter

  /** A requested capability; its access mode may be absent (nil). */
  datatype VolumeCapability = VolumeCapability(accessMode: Option<AccessMode>)

  /** The mode Go's nil-safe getter chain `GetAccessMode().GetMode()` reads. */
  function Mode(c: VolumeCapability): AccessMode {
    c.accessMode.GetOr(Unknown)
  }

  /** A volume record: the in-memory index and the persisted store both hold
      these. `settings` stands for the remaining backend options (monitors,
      image format and features, user ids). Sizes are Go int64 values; the
      model does no arithmetic on them that could wrap. */
  datatype RbdVolume = RbdVolume(
    volName: string,
    volId: string,
    pool: string,
    volSize: int,
    settings: map<string, string>)

  /** A backend image, addressed by pool and image name. */
  datatype ImageRef = ImageRef(pool: string, name: string)

  /** The image a record stands for: the record's pool and volume name. */
  function ImageOf(v: RbdVolume): ImageRef {
    ImageRef(v.pool, v.volName)
  }

  /** Controller state. `images` maps each existing backend image to the size
      in GiB it was created with. */
  datatype ControllerState = ControllerState(
    index: map<string, RbdVolume>,
    store: map<string, RbdVolume>,
    images: map<ImageRef, int>)

  /** Static driver configuration: whether CREATE_DELETE_VOLUME is advertised. */
  datatype Driver = Driver(createDeleteAdvertised: bool)

  datatype CapacityRange = CapacityRange(requiredBytes: int)

  /** A CreateVolume request. `capabilities` is `None` when the field is nil;
      a present but empty list is not nil. Secrets only reach the oracles. */
  datatype CreateRequest = CreateRequest(
    name: string,
    capabilities: Option<seq<VolumeCapability>>,
    capacityRange: Option<CapacityRange>,
    parameters: map<string, string>)

  /** The volume message of a CreateVolume response. */
  datatype Volume = Volume(id: string, capacityBytes: int, attributes: map<string, string>)

  /** What the collaborators report during one CreateVolume call:
      `byName` the name look-up, `options` the parsed parameters (`None` when
      they do not parse), `token` the fresh unique token, `imageFound` the
      status probe, then whether image creation and record persistence
      succeed. */
  datatype CreateEnv = CreateEnv(
    byName: Option<RbdVolume>,
    options: Option<RbdVolume>,
    token: string,
    imageFound: bool,
    createImageOk: bool,
    persistOk: bool)

  /** What the collaborators report during one DeleteVolume call. */
  datatype DeleteEnv = DeleteEnv(loadOk: bool, deleteImageOk: bool, deleteRecordOk: bool)

  /** The answer of ValidateVolumeCapabilities. */
  datatype ValidateResponse = ValidateResponse(supported: bool, message: string)

  /** The name look-up reports a record of the index that carries `name`, or
      nothing when no indexed record carries it. */
  predicate NameLookup(index: map<string, RbdVolume>, name: string, found: Option<RbdVolume>) {
    match found
    case Some(v) => v.volName == name && v in index.Values
    case None => forall id :: id in index ==> index[id].volName != name
  }

  /** The required byte count as Go reads it: zero when the range is nil. */
  function RequiredBytes(req: CreateRequest): int {
    match req.capacityRange
    case Some(c) => c.requiredBytes
    case None => 0
  }

  /** Size of a newly created volume: 1 GiB unless a capacity range is given. */
  function NewVolumeSize(req: CreateRequest): int {
    match req.capacityRange
    case Some(c) => c.requiredBytes
    case None => OneGiB
  }

  /** The id generated from a unique token. */
  function VolumeIdOf(token: string): string {
    VolumeIdPrefix + token
  }

  /** The record CreateVolume builds from the parsed options. */
  function NewRecord(req: CreateRequest, opts: RbdVolume, token: string): RbdVolume {
    opts.(volName := req.name, volId := VolumeIdOf(token), volSize := NewVolumeSize(req))
  }

  /** Go's integer division, which truncates toward zero. */
  function Quo(a: int, b: int): int
    requires b > 0
  {
    if a >= 0 then a / b else -((-a) / b)
  }

  /** The size in GiB handed to image creation: three truncating divisions. */
  function SizeInGiB(bytes: int): int {
    Quo(Quo(Quo(bytes, 1024), 1024), 1024)
  }

  /** Whether the request passes the checks made before the name look-up. */
  predicate CreateRequestWellFormed(d: Driver, req: CreateRequest) {
    d.createDeleteAdvertised && |req.name| > 0 && req.capabilities.Some?
  }

  /** CreateVolume: reject a malformed request; reuse a same-named volume that
      is large enough and refuse a smaller one; otherwise build a record under
      a fresh id, create the image unless the probe finds it, persist the
      record (a failure there is only a warning) and index it. */
  function CreateVolume(d: Driver, s: ControllerState, req: CreateRequest, env: CreateEnv)
    : (t: Transition<ControllerState, Volume>)
    requires NameLookup(s.index, req.name, env.byName)
    // Every error leaves the index, the store and the images as they were.
    ensures t.reply.Err? ==> t.next == s
    ensures !CreateRequestWellFormed(d, req) ==> t.reply == Err(InvalidArgument)
    // Unparsable parameters are a caller error; only image creation is internal.
    ensures CreateRequestWellFormed(d, req) && env.byName.None? && env.options.None? ==>
              t == Transition(s, Err(InvalidArgument))
    ensures t.reply == Err(InvalidArgument) <==>
              !CreateRequestWellFormed(d, req) || (env.byName.None? && env.options.None?)
    ensures t.reply == Err(Internal) <==>
              && CreateRequestWellFormed(d, req) && env.byName.None? && env.options.Some?
              && !env.imageFound && !env.createImageOk
    // A same-named volume is never recreated, persisted or re-indexed.
    ensures env.byName.Some? ==> t.next == s
    // A successful reply always honours the request.
    ensures t.reply.Ok? ==>
              && t.reply.value.capacityBytes >= RequiredBytes(req)
              && t.reply.value.attributes == req.parameters
    ensures t.reply.Ok? && env.byName.None? ==>
              && env.options.Some?
              && var rec := NewRecord(req, env.options.value, env.token);
              && t.reply.value.id == rec.volId
              && t.reply.value.capacityBytes == rec.volSize
              && t.next.index == s.index[rec.volId := rec]
              && t.next.store == (if env.persistOk then s.store[rec.volId := rec] else s.store)
    // Images are only ever added, and only when the probe reports them absent.
    ensures s.images.Keys <= t.next.images.Keys
    ensures env.imageFound ==> t.next.images == s.images
  {
    if !CreateRequestWellFormed(d, req) then
      Transition(s, Err(InvalidArgument))
    else if env.byName.Some? then
      var existing := env.byName.value;
      if existing.volSize >= RequiredBytes(req) then
        Transition(s, Ok(Volume(existing.volId, existing.volSize, req.parameters)))
      else
        Transition(s, Err(AlreadyExists))
    else if env.options.None? then
      Transition(s, Err(InvalidArgument))
    else
      var rec := NewRecord(req, env.options.value, env.token);
      if !env.imageFound && !env.createImageOk then
        Transition(s, Err(Internal))
      else
        var images := if env.imageFound then s.images else s.images[ImageOf(rec) := SizeInGiB(rec.volSize)];
        var store := if env.persistOk then s.store[rec.volId := rec] else s.store;
        Transition(ControllerState(s.index[rec.volId := rec], store, images),
                   Ok(Volume(rec.volId, rec.volSize, req.parameters)))
  }

  /** DeleteVolume: load the record, delete its image, delete the record and
      drop the index entry, in that order, stopping at the first failure. */
  function DeleteVolume(d: Driver, s: ControllerState, volumeId: string, env: DeleteEnv)
    : (t: Transition<ControllerState, ()>)
    ensures !d.createDeleteAdvertised ==> t == Transition(s, Err(InvalidArgument))
    ensures t.reply.Err? ==> t.reply.kind in {InvalidArgument, Internal}
    // A record that does not load, or an image that cannot be deleted, changes nothing.
    ensures d.createDeleteAdvertised && (!env.loadOk || volumeId !in s.store || !env.deleteImageOk) ==>
              t == Transition(s, Err(Internal))
    // A record that cannot be deleted keeps the record and index entry, but the image is gone.
    ensures d.createDeleteAdvertised && env.loadOk && volumeId in s.store && env.deleteImageOk
            && !env.deleteRecordOk ==>
              t == Transition(s.(images := s.images - {ImageOf(s.store[volumeId])}), Err(Internal))
    // The index never changes unless the whole call succeeds.
    ensures t.reply.Err? ==> t.next.index == s.index && t.next.store == s.store
    ensures t.reply.Ok? <==>
              d.createDeleteAdvertised && env.loadOk && volumeId in s.store
              && env.deleteImageOk && env.deleteRecordOk
    ensures t.reply.Ok? ==>
              && t.next.index == s.index - {volumeId}
              && t.next.store == s.store - {volumeId}
              && t.next.images == s.images - {ImageOf(s.store[volumeId])}
    // Deletion order: a record outlives its image, never the other way round.
    ensures volumeId in s.store && ImageOf(s.store[volumeId]) in t.next.images ==> volumeId in t.next.store
    ensures t.next.images.Keys <= s.images.Keys
  {
    if !d.createDeleteAdvertised then
      Transition(s, Err(InvalidArgument))
    else if !env.loadOk || volumeId !in s.store then
      Transition(s, Err(Internal))
    else
      var rec := s.store[volumeId];
      if !env.deleteImageOk then
        Transition(s, Err(Internal))
      else
        var images := s.images - {ImageOf(rec)};
        if !env.deleteRecordOk then
          Transition(s.(images := images), Err(Internal))
        else
          Transition(ControllerState(s.index - {volumeId}, s.store - {volumeId}, images), Ok(()))
  }

  /** The reference definition of a supported capability list. */
  predicate AllSingleNodeWriter(caps: seq<VolumeCapability>) {
    forall i :: 0 <= i < |caps| ==> Mode(caps[i]) == SingleNodeWriter
  }

  /** ValidateVolumeCapabilities: scan the list and answer unsupported at the
      first mode other than SINGLE_NODE_WRITER. It never fails. */
  method ValidateVolumeCapabilities(caps: seq<VolumeCapability>) returns (r: ValidateResponse)
    ensures r.supported <==> AllSingleNodeWriter(caps)
    ensures r.message == ""
  {
    var i := 0;
    while i < |caps|
      invariant 0 <= i <= |caps|
      invariant forall j :: 0 <= j < i ==> Mode(caps[j]) == SingleNodeWriter
    {
      if Mode(caps[i]) != SingleNodeWriter {
        return ValidateResponse(false, "");
      }
      i := i + 1;
    }
    return ValidateResponse(true, "");
  }

  /** ControllerPublishVolume: attach is not a backend concept; acknowledge. */
  function ControllerPublishVolume(s: ControllerState): Transition<ControllerState, ()> {
    Transition(s, Ok(()))
  }

  /** ControllerUnpublishVolume: acknowledge. */
  function ControllerUnpublishVolume(s: ControllerState): Transition<ControllerState, ()> {
    Transition(s, Ok(()))
  }
}

=== FILE: rbd_properties.dfy ===
/** Properties of the RBD controller: what each path of CreateVolume and
    DeleteVolume does, the index invariant both preserve, and the
    relations between successive calls (idempotent re-create, conflicting
    re-create, create followed by delete, delete followed by create). */
module RbdProperties {
  import opened Csi
  import opened RbdController

  /** Every record is filed under its own id, and no two indexed records
      share a name (the look-up before create keeps it that way). */
  predicate Inv(s: ControllerState) {
    && (forall id :: id in s.index ==> s.index[id].volId == id)
    && (forall id :: id in s.store ==> s.store[id].volId == id)
    && (forall a, b :: a in s.index && b in s.index && s.index[a].volName == s.index[b].volName ==> a == b)
  }

  /** The unique token yields an id that neither the index nor the store
      has seen. */
  predicate Fresh(s: ControllerState, token: string) {
    VolumeIdOf(token) !in s.index && VolumeIdOf(token) !in s.store
  }

  /** Under the invariant the name look-up is deterministic. */
  lemma NameLookupUnique(s: ControllerState, name: string, found: Option<RbdVolume>, id: string)
    requires Inv(s) && NameLookup(s.index, name, found)
    requires id in s.index && s.index[id].volName == name
    ensures found == Some(s.index[id])
  {
  }

  lemma CreateRejectsMalformed(d: Driver, s: ControllerState, req: CreateRequest, env: CreateEnv)
    requires NameLookup(s.index, req.name, env.byName)
    requires !d.createDeleteAdvertised || |req.name| == 0 || req.capabilities.None?
    ensures CreateVolume(d, s, req, env) == Transition(s, Err(InvalidArgument))
  {
  }

  lemma CreateReusesCompatible(d: Driver, s: ControllerState, req: CreateRequest, env: CreateEnv)
    requires NameLookup(s.index, req.name, env.byName)
    requires CreateRequestWellFormed(d, req)
    requires env.byName.Some? && env.byName.value.volSize >= RequiredBytes(req)
    ensures var v := env.byName.value;
            CreateVolume(d, s, req, env) == Transition(s, Ok(Volume(v.volId, v.volSize, req.parameters)))
  {
  }

  /** AlreadyExists is returned exactly when a same-named volume is smaller
      than the request. */
  lemma CreateConflict(d: Driver, s: ControllerState, req: CreateRequest, env: CreateEnv)
    requires NameLookup(s.index, req.name, env.byName)
    ensures CreateVolume(d, s, req, env).reply == Err(AlreadyExists) <==>
              && CreateRequestWellFormed(d, req)
              && env.byName.Some?
              && env.byName.value.volSize < RequiredBytes(req)
  {
  }

  /** A newly created volume is named after the request, gets the id
      "csi-rbd-" + token, and is 1 GiB unless a capacity range says otherwise. */
  lemma CreateNewVolume(d: Driver, s: ControllerState, req: CreateRequest, env: CreateEnv)
    requires NameLookup(s.index, req.name, env.byName)
    requires env.byName.None?
    requires CreateVolume(d, s, req, env).reply.Ok?
    ensures var t := CreateVolume(d, s, req, env);
            var id := t.reply.value.id;
            && id == "csi-rbd-" + env.token
            && id in t.next.index
            && t.next.index[id].volName == req.name
            && t.next.index[id].volId == id
            && t.reply.value.capacityBytes == t.next.index[id].volSize
            && (req.capacityRange.None? ==> t.reply.value.capacityBytes == 1073741824)
            && (req.capacityRange.Some? ==> t.reply.value.capacityBytes == req.capacityRange.value.requiredBytes)
  {
  }

  /** The image is created only when the probe reports it absent, with the
      size truncated to whole GiB; a creation failure changes nothing. */
  lemma CreateImageOnlyWhenAbsent(d: Driver, s: ControllerState, req: CreateRequest, env: CreateEnv)
    requires NameLookup(s.index, req.name, env.byName)
    requires CreateRequestWellFormed(d, req) && env.byName.None? && env.options.Some?
    ensures var t := CreateVolume(d, s, req, env);
            var rec := NewRecord(req, env.options.value, env.token);
            && (env.imageFound ==> t.reply.Ok? && t.next.images == s.images)
            && (!env.imageFound && !env.createImageOk ==> t == Transition(s, Err(Internal)))
            && (!env.imageFound && env.createImageOk ==>
                  t.reply.Ok? && t.next.images == s.images[ImageOf(rec) := SizeInGiB(NewVolumeSize(req))])
  {
  }

  /** A failure to persist the record is only a warning: the call still
      succeeds and the record is indexed, but the store is untouched. */
  lemma CreatePersistFailureIsWarning(d: Driver, s: ControllerState, req: CreateRequest, env: CreateEnv)
    requires NameLookup(s.index, req.name, env.byName)
    requires CreateRequestWellFormed(d, req) && env.byName.None? && env.options.Some?
    requires env.imageFound || env.createImageOk
    requires !env.persistOk
    ensures var t := CreateVolume(d, s, req, env);
            && t.reply.Ok?
            && t.next.store == s.store
            && t.next.index == s.index[VolumeIdOf(env.token) := NewRecord(req, env.options.value, env.token)]
  {
  }

  /** CreateVolume keeps the invariant whatever the token: a reused id is
      overwritten by a record carrying that id and a name no other record has. */
  lemma CreatePreservesInv(d: Driver, s: ControllerState, req: CreateRequest, env: CreateEnv)
    requires Inv(s) && NameLookup(s.index, req.name, env.byName)
    ensures Inv(CreateVolume(d, s, req, env).next)
  {
  }

  lemma DeletePreservesInv(d: Driver, s: ControllerState, volumeId: string, env: DeleteEnv)
    requires Inv(s)
    ensures Inv(DeleteVolume(d, s, volumeId, env).next)
  {
  }

  /** Repeating a successful CreateVolume returns the same volume and changes
      nothing: no second image, record or index entry. */
  lemma CreateIdempotent(d: Driver, s: ControllerState, req: CreateRequest, env1: CreateEnv, env2: CreateEnv)
    requires Inv(s) && NameLookup(s.index, req.name, env1.byName)
    requires CreateVolume(d, s, req, env1).reply.Ok?
    requires NameLookup(CreateVolume(d, s, req, env1).next.index, req.name, env2.byName)
    ensures var t1 := CreateVolume(d, s, req, env1);
            CreateVolume(d, t1.next, req, env2) == t1
  {
    var t1 := CreateVolume(d, s, req, env1);
    CreatePreservesInv(d, s, req, env1);
    var id := t1.reply.value.id;
    if env1.byName.Some? {
      var v := env1.byName.value;
      var other :| other in s.index && s.index[other] == v;
      NameLookupUnique(t1.next, req.name, env2.byName, other);
    } else {
      NameLookupUnique(t1.next, req.name, env2.byName, id);
    }
  }

  /** A later request with the same name asking for no more than was
      provisioned gets the same volume id and capacity and changes nothing:
      no second image, record or index entry. */
  lemma CreateCompatibleAfterCreateReuses(d: Driver, s: ControllerState, req: CreateRequest, env1: CreateEnv,
                                          req2: CreateRequest, env2: CreateEnv)
    requires Inv(s) && NameLookup(s.index, req.name, env1.byName)
    requires CreateVolume(d, s, req, env1).reply.Ok?
    requires req2.name == req.name && req2.capabilities.Some?
    requires RequiredBytes(req2) <= CreateVolume(d, s, req, env1).reply.value.capacityBytes
    requires NameLookup(CreateVolume(d, s, req, env1).next.index, req2.name, env2.byName)
    ensures var t1 := CreateVolume(d, s, req, env1);
            var t2 := CreateVolume(d, t1.next, req2, env2);
            && t2.next == t1.next
            && t2.reply == Ok(Volume(t1.reply.value.id, t1.reply.value.capacityBytes, req2.parameters))
  {
    var t1 := CreateVolume(d, s, req, env1);
    CreatePreservesInv(d, s, req, env1);
    if env1.byName.Some? {
      var v := env1.byName.value;
      var other :| other in s.index && s.index[other] == v;
      NameLookupUnique(t1.next, req.name, env2.byName, other);
    } else {
      NameLookupUnique(t1.next, req.name, env2.byName, t1.reply.value.id);
    }
  }

  /** Asking again for the same name but more bytes than were provisioned is
      a conflict, and changes nothing. */
  lemma CreateLargerAfterCreateConflicts(d: Driver, s: ControllerState, req: CreateRequest, env1: CreateEnv,
                                         bigger: CreateRequest, env2: CreateEnv)
    requires Inv(s) && NameLookup(s.index, req.name, env1.byName)
    requires CreateVolume(d, s, req, env1).reply.Ok?
    requires bigger.name == req.name && bigger.capabilities.Some?
    requires RequiredBytes(bigger) > CreateVolume(d, s, req, env1).reply.value.capacityBytes
    requires NameLookup(CreateVolume(d, s, req, env1).next.index, bigger.name, env2.byName)
    ensures var t1 := CreateVolume(d, s, req, env1);
            CreateVolume(d, t1.next, bigger, env2) == Transition(t1.next, Err(AlreadyExists))
  {
    var t1 := CreateVolume(d, s, req, env1);
    CreatePreservesInv(d, s, req, env1);
    if env1.byName.Some? {
      var v := env1.byName.value;
      var other :| other in s.index && s.index[other] == v;
      NameLookupUnique(t1.next, req.name, env2.byName, other);
    } else {
      NameLookupUnique(t1.next, req.name, env2.byName, t1.reply.value.id);
    }
  }

  /** Deleting a volume that was just created and persisted restores the
      index and the store, and leaves its image gone. */
  lemma CreateThenDelete(d: Driver, s: ControllerState, req: CreateRequest, env: CreateEnv, denv: DeleteEnv)
    requires Inv(s) && NameLookup(s.index, req.name, env.byName)
    requires env.byName.None? && Fresh(s, env.token) && env.persistOk
    requires CreateVolume(d, s, req, env).reply.Ok?
    requires denv.loadOk && denv.deleteImageOk && denv.deleteRecordOk
    ensures var t1 := CreateVolume(d, s, req, env);
            var t2 := DeleteVolume(d, t1.next, t1.reply.value.id, denv);
            && t2.reply.Ok?
            && t2.next.index == s.index
            && t2.next.store == s.store
            && ImageOf(NewRecord(req, env.options.value, env.token)) !in t2.next.images
  {
  }

  /** After a volume is deleted its name is free again: a create with that
      name takes the creation path and returns an id built from its own
      fresh token, different from the deleted one. */
  lemma DeleteThenCreate(d: Driver, s: ControllerState, id: string, denv: DeleteEnv,
                         req: CreateRequest, env: CreateEnv)
    requires Inv(s) && id in s.index
    requires DeleteVolume(d, s, id, denv).reply.Ok?
    requires req.name == s.index[id].volName
    requires NameLookup(DeleteVolume(d, s, id, denv).next.index, req.name, env.byName)
    requires Fresh(s, env.token)
    ensures env.byName.None?
    ensures var t := CreateVolume(d, DeleteVolume(d, s, id, denv).next, req, env);
            t.reply.Ok? ==> t.reply.value.id == VolumeIdOf(env.token) && t.reply.value.id != id
  {
  }

  /** Go's truncating division by 1024 three times is the whole number of
      GiB: for a non-negative byte count the image size never exceeds it. */
  lemma SizeInGiBTruncates(bytes: int)
    requires bytes >= 0
    ensures SizeInGiB(bytes) * OneGiB <= bytes < SizeInGiB(bytes) * OneGiB + OneGiB
  {
  }

  /** A request for 1.5 GiB reports 1.5 GiB of capacity but hands image
      creation a size of 1 GiB, and a request below 1 GiB hands it 0. */
  lemma SubGiBRemainderIsDropped()
    ensures SizeInGiB(1610612736) == 1
    ensures SizeInGiB(536870912) == 0
  {
  }

  /** Whenever the byte count is not a whole number of GiB, the image handed
      to creation is strictly smaller than the capacity the reply reports. */
  lemma PartialGiBShrinksImage(bytes: int)
    requires bytes > 0 && bytes % OneGiB != 0
    ensures SizeInGiB(bytes) * OneGiB < bytes
  {
    SizeInGiBTruncates(bytes);
  }

  /** The controller publish and unpublish handlers always succeed and change
      nothing. */
  lemma PublishStubsAreNoOps(s: ControllerState)
    ensures ControllerPublishVolume(s) == Transition(s, Ok(()))
    ensures ControllerUnpublishVolume(s) == Transition(s, Ok(()))
  {
  }
}
